=== FILE: README.md ===
# Traffic-game control layer in Dafny

This project models the game-control layer of a four-lane intersection
game. An operator (the traffic officer) stands in a lane and sends
commands to the nearest car in that lane. Spawners create cars over time.
A score tracker counts correctly guided cars (+1) and crashes (-1), and a
session controller ends the game when a threshold is reached. The model
covers five scripts:

- **Score tracker** (`ScoreManager.cs`, module `Score`). The score is a
  32-bit integer; `++` and `--` wrap at the ends of that range. After every
  change the win threshold is checked first, then the lose threshold. Either
  one yields an end request. The tracker keeps no latch of its own.
- **Session controller** (`TrafficManager.cs`, module `Session`). It holds
  the only latch, `gameEnded`. The first end request stops the spawner,
  destroys every registered car and picks the outcome scene. Later requests
  do nothing. Clearing walks a snapshot of the registry.
- **Controllable-car spawner** (`Spawner.cs`, module `VehicleSpawning`).
  Its state is an enabled flag and a next-spawn time. A car is spawned only
  when the spawner is enabled and the clock has reached that time.
  Rescheduling adds a random interval in `[min, max]`. A car gets its own
  lane's stop and straight anchors through a bounds-safe lookup, plus the
  shared turn anchors.
- **Through-traffic spawner** (`TrafficSpawner.cs`, module
  `ThroughTraffic`). It has no enabled flag. Each car exits on the side
  opposite the one it spawned on.
- **Operator** (`Player.cs`, module `Operator`). Lane changes are clamped
  to the lanes that exist. Keys map to commands in a fixed priority order:
  A sends `Right`, W sends `Straight`, D sends `Left`, S sends `Stop`.
  Targeting picks the nearest car in the lane; of equally near cars, the
  first in the registry wins.

Module `Game` composes these parts. A score event feeds the tracker. An end
request goes to the session controller, or, when there is none, to the
tracker's own fallback scene. A frame runs the spawner and registers the
car it spawns. Modules `Engine` (nullable references, anchors, prefabs,
clamping, the float random range, the scene choice) and `Cars` (the
live-car registry) hold the shared vocabulary.

Inputs the engine provides are arguments:
- the clock (`now`);
- every random draw: the lane, the direction, the interval fraction and the
  side coin;
- the key presses;
- each car's distance from the officer (a function `Car -> real`).

A scene load is modelled as the requested scene name.

In three places the code does less than a reader of its comments or of the
game design might expect. The model follows the code:
- The score tracker has no end-of-game latch. Only the session controller
  latches. Without a controller, every event past a threshold requests the
  scene again (`Game.NoControllerNoLatch`).
- Stopping the spawner leaves the next-spawn time unchanged. Only starting
  it reschedules.
- Targeting does not skip cars that have already passed the officer. It
  takes the nearest car in the lane.

Two behaviours of the code are modelled as written:
- The key bindings are as coded: A sends `Right` and D sends `Left`. The
  code's own comments describe A as turning left.
- When the drawn lane's spawn slot is null, reading its position throws.
  The frame's update then stops before rescheduling, so the spawner stays
  due and tries again next frame. `VehicleSpawning.SpawnCar` returns
  `Faulted` for this case, and `VehicleSpawning.Update` leaves the state
  unchanged.

## Model

| member | source | states |
|---|---|---|
| `Score.CheckEndGame` | KinectTrafficGame/Assets/Scripts/ScoreManager.cs:70-86 | A win request exactly when score >= winScore. A lose request exactly when score < winScore and score <= loseScore. No request exactly when loseScore < score < winScore. |
| `Score.OnCarGuidedSuccessfully` | KinectTrafficGame/Assets/Scripts/ScoreManager.cs:45-50 | The score rises by exactly 1 below the 32-bit maximum and wraps from the maximum to the minimum. The event then issues at most one request, win or lose, as the threshold check decides for the new score. |
| `Score.OnCarCrash` | KinectTrafficGame/Assets/Scripts/ScoreManager.cs:55-60 | The score falls by exactly 1 above the 32-bit minimum and wraps from the minimum to the maximum. The event then issues at most one request, decided on the new score. |
| `Score.HandleEnd` | KinectTrafficGame/Assets/Scripts/ScoreManager.cs:88-108 | With a session controller, the request is delegated to it. Without one, the win scene is loaded if `win` and the lose scene if not. An empty name means no transition. |
| `Score.WinTakesPrecedence` | KinectTrafficGame/Assets/Scripts/ScoreManager.cs:72-85 | With misconfigured thresholds where a score is both a win and a loss, only the win is requested. |
| `Score.NoLatchPastWin` | KinectTrafficGame/Assets/Scripts/ScoreManager.cs:45-50 | No latch: from a score at or past winScore, every one of n further successes issues another win request. |
| `Score.NoLatchPastLoss` | KinectTrafficGame/Assets/Scripts/ScoreManager.cs:55-60 | No latch: from a score at or below loseScore, every one of n further crashes issues another lose request. |
| `Score.QuietClimb` | KinectTrafficGame/Assets/Scripts/ScoreManager.cs:70-86 | Successes that keep the score strictly between the thresholds raise it one by one and issue no request. |
| `Score.QuietFall` | KinectTrafficGame/Assets/Scripts/ScoreManager.cs:70-86 | Crashes that keep the score strictly between the thresholds lower it one by one and issue no request. |
| `Score.DefaultWinOnThirtiethSuccess` | KinectTrafficGame/Assets/Scripts/ScoreManager.cs:11-13 | With thresholds 30/-10 and a start at 0, the first 29 successes issue nothing and the 30th issues the first win request. |
| `Score.DefaultLossOnTenthCrash` | KinectTrafficGame/Assets/Scripts/ScoreManager.cs:11-13 | With thresholds 30/-10 and a start at 0, the first 9 crashes issue nothing and the 10th issues the first lose request. |
| `Engine.SceneRequest` | KinectTrafficGame/Assets/Scripts/TrafficManager.cs:62-70 | The win scene when `win`, the lose scene otherwise. No transition exactly when that name is empty. |
| `Session.Start` | KinectTrafficGame/Assets/Scripts/TrafficManager.cs:35-42 | An attached spawner ends up enabled, with its next spawn rescheduled within [now + min, now + max]. Latch and registry are untouched. Without a spawner, nothing changes. |
| `Session.EndGame` | KinectTrafficGame/Assets/Scripts/TrafficManager.cs:47-71 | Once ended, a call changes nothing, destroys nothing and requests no scene. A first call sets the latch and disables the spawner, keeping its next-spawn time. It destroys exactly the non-null registered cars, leaves no car registered, and requests the outcome scene. |
| `Session.EndGameIsIdempotent` | KinectTrafficGame/Assets/Scripts/TrafficManager.cs:49-50 | After any end request, a second one (win or lose) is a no-op. |
| `Session.ClearAllCars` | KinectTrafficGame/Assets/Scripts/TrafficManager.cs:73-84 | The walk over the snapshot destroys exactly the non-null cars, in registry order. The live list left once those cars have unregistered (after the frame, in the engine) holds no car. |
| `VehicleSpawning.SafeGet` | KinectTrafficGame/Assets/Scripts/Spawner.cs:104-108 | Null for a null array or an index at or past its length. Otherwise the slot's content. |
| `VehicleSpawning.DirectionOf` | KinectTrafficGame/Assets/Scripts/Spawner.cs:100 | The direction draw 0, 1, 2 maps one-to-one onto Straight, Left, Right. |
| `VehicleSpawning.ScheduleNextSpawn` | KinectTrafficGame/Assets/Scripts/Spawner.cs:69-72 | now + min <= nextSpawnTime <= now + max whenever min <= max. |
| `VehicleSpawning.Start` | KinectTrafficGame/Assets/Scripts/Spawner.cs:31-36 | Enabled exactly when autoStart is set. A next spawn time is scheduled within [now + min, now + max]. |
| `VehicleSpawning.StartSpawning` | KinectTrafficGame/Assets/Scripts/Spawner.cs:53-58 | Enabled, and rescheduled within [now + min, now + max]. |
| `VehicleSpawning.StopSpawning` | KinectTrafficGame/Assets/Scripts/Spawner.cs:60-63 | Disabled, with the next-spawn time unchanged. |
| `VehicleSpawning.SpawnCar` | KinectTrafficGame/Assets/Scripts/Spawner.cs:74-102 | Nothing is created exactly when the prefab is missing or there are no spawn points. The attempt faults exactly when the drawn lane's spawn slot is null. A created car is in the drawn lane, which lies in [0, spawn-point count), at that lane's spawn point. It is configured only when the prefab has the car script. A configured car gets its lane index, its lane's stop and straight anchors via SafeGet, the shared turn anchors, and the drawn direction. |
| `VehicleSpawning.Update` | KinectTrafficGame/Assets/Scripts/Spawner.cs:38-47 | A spawn is attempted exactly when enabled and now >= nextSpawnTime. Otherwise the state is unchanged. After an attempt the spawner is rescheduled within [now + min, now + max], even when the spawn was skipped. The one exception is a faulted spawn, which leaves the state unchanged. The enabled flag never changes. |
| `VehicleSpawning.NoBurstAfterStartSpawning` | KinectTrafficGame/Assets/Scripts/Spawner.cs:53-58 | With 0 < min <= max, a spawner just switched on does not spawn in the same frame. |
| `VehicleSpawning.StoppedSpawnerIsInert` | KinectTrafficGame/Assets/Scripts/Spawner.cs:38-40 | A disabled spawner attempts nothing and keeps its state over any run of frames. |
| `VehicleSpawning.SpawnedLanesInRange` | KinectTrafficGame/Assets/Scripts/Spawner.cs:79 | Over any run of frames, every spawned car's lane lies in [0, spawn-point count). |
| `ThroughTraffic.ScheduleNextSpawn` | KinectTrafficGame/Assets/Scripts/TrafficSpawner.cs:36-39 | now + min <= nextSpawnTime <= now + max whenever min <= max. |
| `ThroughTraffic.Start` | KinectTrafficGame/Assets/Scripts/TrafficSpawner.cs:22-25 | The first spawn is scheduled within [now + min, now + max]. |
| `ThroughTraffic.SpawnHorizontalCar` | KinectTrafficGame/Assets/Scripts/TrafficSpawner.cs:41-72 | No car exactly when the prefab is null, or the chosen side's spawn point is missing, or the opposite exit is missing. A car comes from the left exactly when the coin is above 0.5, and sits at that side's spawn point. Its target is set exactly when the prefab has the car script, and it is the opposite side's exit. |
| `ThroughTraffic.Update` | KinectTrafficGame/Assets/Scripts/TrafficSpawner.cs:27-34 | A spawn is attempted exactly when now >= nextSpawnTime, and rescheduling follows every attempt. There is no enabled state. |
| `ThroughTraffic.CrossingsHeadForFarSide` | KinectTrafficGame/Assets/Scripts/TrafficSpawner.cs:27-71 | Over any run of frames, every car created sits at its own side's spawn point, and any target it is given is the exit on the far side. |
| `ThroughTraffic.ExitIsOppositeSide` | KinectTrafficGame/Assets/Scripts/TrafficSpawner.cs:50-53 | For every configuration: from the left the target is exitRight, from the right it is exitLeft. |
| `ThroughTraffic.ExitNeverOwnSide` | KinectTrafficGame/Assets/Scripts/TrafficSpawner.cs:50-53 | With two distinct exits, the target is never the exit on the car's own side. |
| `Operator.Start` | KinectTrafficGame/Assets/Scripts/Player.cs:24-35 | With lanes, the lane index is pulled into [0, n-1], and an in-range index is kept. Without lanes, it is unchanged. |
| `Operator.ChangeLane` | KinectTrafficGame/Assets/Scripts/Player.cs:64-76 | A null or empty lane list changes nothing. Otherwise the new index lies in [0, n-1]: it is current + delta when that is in range, and is clamped to 0 or n-1 otherwise. The officer moves exactly when the index changes. The change throws exactly when it moves onto a null position slot, after the index is stored. |
| `Operator.LaneDelta` | KinectTrafficGame/Assets/Scripts/Player.cs:54-61 | The left arrow gives -1 and takes precedence. The right arrow alone gives +1. Neither gives no change. |
| `Operator.HandleLaneInput` | KinectTrafficGame/Assets/Scripts/Player.cs:48-62 | No keyboard or no arrow key leaves the lane unchanged, without a fault. Otherwise the outcome is that of ChangeLane with the arrow's delta. |
| `Operator.KeyCommand` | KinectTrafficGame/Assets/Scripts/Player.cs:117-136 | The A/W/D/S chain yields a real command, never NoCommand, or none at all. Its full mapping is stated against the priority table by `Operator.KeyCommandByPriority`. |
| `Operator.KeyCommandByPriority` | KinectTrafficGame/Assets/Scripts/Player.cs:118-136 | A command is chosen exactly when its bound key (A→Right, W→Straight, D→Left, S→Stop) is down and no key of a higher-priority command (A > W > D > S) is. No command exactly when none of the four is down. |
| `Operator.ScanNearest` | KinectTrafficGame/Assets/Scripts/Player.cs:155-172 | The loop with its running best keeps its meaning from a prefix to the whole registry: no car in the lane, or the earliest of the nearest such cars. |
| `Operator.FindNearestCarInLane` | KinectTrafficGame/Assets/Scripts/Player.cs:153-176 | Null exactly when no non-null entry is a car in the lane. Otherwise the index of a car in the lane that is no farther than any other such car and strictly nearer than every such car before it, so ties go to the earliest. |
| `Operator.NearestIsUnique` | KinectTrafficGame/Assets/Scripts/Player.cs:160-172 | Any index that meets that description is the one returned: the selection is fully determined. |
| `Operator.SendCommandToCurrentLane` | KinectTrafficGame/Assets/Scripts/Player.cs:139-150 | The command goes to the nearest car in the officer's lane, the one the nearest-car search returns. It goes unanswered exactly when no car occupies that lane. |
| `Operator.HandleCommandInput` | KinectTrafficGame/Assets/Scripts/Player.cs:109-137 | Nothing is sent when the registry is empty, there is no keyboard, or no command key is down. Otherwise the key mapping's choice, at most one per frame, is sent to the current lane: it reaches the nearest car there whenever the lane holds one, and goes unanswered only when it holds none. |
| `Operator.Update` | KinectTrafficGame/Assets/Scripts/Player.cs:37-42 | Lane input comes first, then command input from the resulting lane. An in-range lane stays in range. A lane change onto a null position slot abandons the frame: the new index stays and no command is sent. |
| `Operator.LaneStaysInRange` | KinectTrafficGame/Assets/Scripts/Player.cs:64-76 | From an in-range lane, any run of frames keeps the lane index in [0, n-1]. |
| `Game.HandleRequest` | KinectTrafficGame/Assets/Scripts/ScoreManager.cs:88-108 | No request changes nothing. A request goes to the session controller's EndGame when there is one, and otherwise to the tracker's own scene choice. |
| `Game.SpawnFrame` | KinectTrafficGame/Assets/Scripts/Spawner.cs:74-102 | A spawner frame touches only the spawner and the registry, and a disabled or absent spawner changes nothing. The spawner's new state is the one its own frame update gives. A car joins the registry exactly when that update spawned one from a prefab with the car script (the car registers itself on enable). It is appended at the end, under a fresh id, in the spawned lane, which lies in [0, spawn-point count). |
| `Game.EndedGameStaysEnded` | KinectTrafficGame/Assets/Scripts/TrafficManager.cs:47-59 | Once the session has ended with its spawner off, no run of score events or frames spawns, destroys or requests a scene, or changes the session. |
| `Game.LossOnTenthCrash` | KinectTrafficGame/Assets/Scripts/ScoreManager.cs:55-60 | With thresholds 30/-10, a controller and a running spawner, ten crashes from 0 end the game exactly once, on the tenth. Only the tenth requests a scene (the lose scene). The spawner ends up disabled and every registered car is destroyed. |
| `Game.WinOnThirtiethSuccess` | KinectTrafficGame/Assets/Scripts/ScoreManager.cs:45-50 | With thresholds 30/-10, thirty successes from 0 end the game exactly once, on the thirtieth, with the win scene. The spawner ends up disabled and the registry is cleared. |
| `Game.NoControllerNoLatch` | KinectTrafficGame/Assets/Scripts/ScoreManager.cs:95-106 | Without a session controller, each crash that leaves the score at or below loseScore requests the lose scene again and changes nothing else. |
| `Game.StepKeepsIdsFresh` | KinectTrafficGame/Assets/Scripts/Spawner.cs:76-83 | Every event keeps registry ids below the next id and pairwise distinct: each spawned car registers once, under a fresh id. |

## Left out

- The car's own script (`NPC Car.cs`) is not part of this model. That
  covers its phase machine, its scoring on a correct command and its
  collision handling. A car is its identity and lane, and score events are
  inputs.
- The gesture input system (`KinectInputSystem.cs`) is not part of this
  model. It is pose recognition over sensor data with float thresholds and
  frame timers.
- The through-traffic car's motion (`TrafficNPC.cs`) is not part of this
  model. It is rigid-body motion and rotation.
- The officer's smooth movement between lanes and the officer sprites'
  transparency are left out: they are float interpolation and
  presentation. So is the officer's target position. A lane change onto a
  null lane-position slot is modelled as a fault that keeps the new index
  and skips the rest of the frame. A null slot read at start-up also throws,
  after the index is clamped. That skips placing the officer in its lane
  (`Player.cs` lines 30-31), so the officer drifts toward the default target
  until a lane change succeeds, and it skips the sprite refresh. Both are
  position and presentation, which this model leaves out.
- Singleton set-up and teardown, UI text, logging and the scene loader are
  left out. A scene load appears only as the requested scene name.
- Destruction is deferred by the engine to the end of the frame. The model
  gives the registry after the destroyed cars have unregistered.
- A car's own despawn is not an event in `Game`: a car that finishes its
  exit run or crashes destroys itself in its own script, which is not part
  of this model. In `Game` the registry only grows, except when the session
  controller clears it.
- Floats are reals, with no rounding, NaN or infinity. The "no best yet"
  starting distance (positive infinity) is an empty best.
- The clock, the random draws, the key presses and the car distances are
  arguments. Ranges the random source guarantees are preconditions.
- Start-up order between scripts is not modelled. The controller's
  start-up enables the spawner, but the spawner's own start-up, if it runs
  later, sets the flag back to autoStart.
- A spawner that exists but is not referenced by the session controller is
  not modelled. `Game` has one spawner, and the controller references it
  when present.
- Through-traffic cars never join the registry, and the session controller
  does not stop their spawner. `Game` therefore leaves through-traffic out.

=== FILE: cars.dfy ===
/**
 The live-car registry: the static list every controllable car adds itself
 to when enabled and removes itself from when disabled. The operator's
 targeting scans it and the session controller clears it. A car is known
 here only by its identity and its lane; its driving behaviour is not part
 of this model.
 */
module Cars {
  import opened Engine

  /** A controllable car as the registry's users see it. */
  datatype Car = Car(id: nat, lane: int)

  /** The registry, in insertion order. Entries are nullable because every
      user of the list guards against null entries. */
  type Registry = seq<Option<Car>>

  /** The non-null cars of a registry, in registry order. */
  function Live(reg: Registry): (cars: seq<Car>)
    ensures |cars| <= |reg|
    ensures forall c :: c in cars <==> Some(c) in reg
  {
    if |reg| == 0 then []
    else
      var front := Live(reg[..|reg| - 1]);
      assert reg == reg[..|reg| - 1] + [reg[|reg| - 1]];
      match reg[|reg| - 1]
      case None => front
      case Some(c) => front + [c]
  }

  /** True when no entry of the registry holds a car. */
  predicate NoCars(reg: Registry) {
    forall k :: 0 <= k < |reg| ==> reg[k].None?
  }

  /** What is left of a registry once every car in it has unregistered:
      its null entries, in order. */
  function Cleared(reg: Registry): (rest: Registry)
    ensures NoCars(rest)
    ensures |rest| + |Live(reg)| == |reg|
  {
    if |reg| == 0 then []
    else
      var front := Cleared(reg[..|reg| - 1]);
      match reg[|reg| - 1]
      case None => front + [None]
      case Some(_) => front
  }

  /** Extending a registry prefix by one entry extends its live cars and
      its leftovers by that entry's share. */
  lemma PrefixStep(reg: Registry, i: nat)
    requires i < |reg|
    ensures Live(reg[..i + 1]) == Live(reg[..i]) + (if reg[i].Some? then [reg[i].value] else [])
    ensures Cleared(reg[..i + 1]) == Cleared(reg[..i]) + (if reg[i].Some? then [] else [None])
  {
    assert reg[..i + 1][..i] == reg[..i];
  }

  /** List removal: drops the first entry equal to `Some(c)`, if any. */
  function RemoveFirst(reg: Registry, c: Car): (r: Registry)
    ensures Some(c) in reg ==> |r| == |reg| - 1
    ensures Some(c) !in reg ==> r == reg
  {
    if |reg| == 0 then []
    else if reg[0] == Some(c) then reg[1..]
    else [reg[0]] + RemoveFirst(reg[1..], c)
  }

  /** Removing a car that follows a car-free prefix takes exactly that
      entry out and leaves both sides untouched. */
  lemma {:induction false} RemoveAfterCarFreePrefix(prefix: Registry, c: Car, rest: Registry)
    requires NoCars(prefix)
    ensures RemoveFirst(prefix + [Some(c)] + rest, c) == prefix + rest
  {
    if |prefix| == 0 {
      assert prefix + [Some(c)] + rest == [Some(c)] + rest;
    } else {
      var whole := prefix + [Some(c)] + rest;
      assert whole[0] == prefix[0] && whole[0] != Some(c);
      assert whole[1..] == prefix[1..] + [Some(c)] + rest;
      RemoveAfterCarFreePrefix(prefix[1..], c, rest);
      assert prefix == [prefix[0]] + prefix[1..];
    }
  }
}

=== FILE: engine.dfy ===
/**
 The engine-level vocabulary the game scripts share: nullable object
 references, scene anchors (Transforms used as spawn, stop and exit points),
 prefabs, and the three engine helpers the scripts lean on — integer
 clamping, a float random range, and choosing an outcome scene by name —
 and one sequence helper.
 */
module Engine {

  /** A reference to an engine object that may be null. */
  datatype Option<+T> = None | Some(value: T)

  /** `n` copies of one value. */
  function Repeat<T>(x: T, n: nat): (s: seq<T>)
    ensures |s| == n
    ensures forall i :: 0 <= i < n ==> s[i] == x
  {
    if n == 0 then [] else [x] + Repeat(x, n - 1)
  }

  /** A scene Transform, known only by identity: the model never looks at
      positions, only at which anchor a car is given. */
  datatype Anchor = Anchor(id: nat)

  /** A prefab. `hasController` says whether the instantiated object carries
      the car script that the spawner then configures. */
  datatype Prefab = Prefab(id: nat, hasController: bool)

  /** Integer clamping as the engine does it: below `min` gives `min`,
      otherwise above `max` gives `max`, otherwise the value itself. */
  function Clamp(value: int, min: int, max: int): (r: int)
    ensures min <= max ==> min <= r <= max
    ensures min <= max && min <= value <= max ==> r == value
  {
    if value < min then min else if value > max then max else value
  }

  /** A float drawn between `min` and `max` (both inclusive), modelled as
      the point a fraction `u` of the way from `min` to `max`; `u` is the
      random source's output and is an argument here. */
  function RangeDraw(min: real, max: real, u: real): (r: real)
    requires 0.0 <= u <= 1.0
    ensures min <= max ==> min <= r <= max
  {
    var span := max - min;
    assert min <= max ==> 0.0 <= u * span <= span by {
      if min <= max {
        ProductOfNonNegatives(u, span);
        ProductOfNonNegatives(1.0 - u, span);
      }
    }
    min + u * span
  }

  lemma ProductOfNonNegatives(a: real, b: real)
    requires 0.0 <= a && 0.0 <= b
    ensures 0.0 <= a * b
  {
  }

  /** The scene a game-end transition goes to: the win scene when `win`,
      the lose scene otherwise, and no transition when that name is empty. */
  function SceneRequest(winSceneName: string, loseSceneName: string, win: bool): (r: Option<string>)
    ensures win && winSceneName != [] ==> r == Some(winSceneName)
    ensures !win && loseSceneName != [] ==> r == Some(loseSceneName)
    ensures r == None <==> (if win then winSceneName else loseSceneName) == []
  {
    var sceneToLoad := if win then winSceneName else loseSceneName;
    if sceneToLoad != [] then Some(sceneToLoad) else None
  }
}

=== FILE: game.dfy ===
/**
 The game-control layer put together. Score events go to the score tracker;
 an end request it issues goes to the session controller when there is one
 (which stops the spawner, clears the registry and picks the outcome scene,
 once), or else straight to a scene of the tracker's own. A frame runs the
 controllable-car spawner, and a spawned car whose prefab carries the car
 script joins the registry.
 */
module Game {
  import opened Engine
  import opened Cars
  import Score
  import Session
  import VehicleSpawning

  datatype Config = Config(
    score: Score.Config,
    session: Session.Config,
    spawner: VehicleSpawning.Config)

  /** The whole control state. `controllerPresent` says whether a session
      controller exists; the spawner and the registry live in `session`
      either way. Cars get identities from `nextCarId` in spawn order. */
  datatype Game = Game(
    score: Score.int32,
    controllerPresent: bool,
    session: Session.Session,
    nextCarId: nat)

  /** What one event leads to: the new state, the cars destroyed and the
      scene requested. */
  datatype Outcome = Outcome(game: Game, destroyed: seq<Car>, scene: Option<string>)

  /** The tracker's handling of a threshold check's result. */
  function HandleRequest(cfg: Config, g: Game, request: Score.Request): (r: Outcome)
    ensures request.None? ==> r == Outcome(g, [], None)
    ensures request.Some? && g.controllerPresent ==>
              var e := Session.EndGame(cfg.session, g.session, request.value);
              r == Outcome(g.(session := e.session), e.destroyed, e.scene)
    ensures request.Some? && !g.controllerPresent ==>
              r == Outcome(g, [], SceneRequest(cfg.score.winSceneName, cfg.score.loseSceneName, request.value))
  {
    match request
    case None => Outcome(g, [], None)
    case Some(win) =>
      match Score.HandleEnd(cfg.score, g.controllerPresent, win)
      case Delegate(w) =>
        var e := Session.EndGame(cfg.session, g.session, w);
        Outcome(g.(session := e.session), e.destroyed, e.scene)
      case LoadScene(name) => Outcome(g, [], Some(name))
      case NoTransition => Outcome(g, [], None)
  }

  datatype Event =
    | Scored(kind: Score.Kind)
    | Frame(now: real, draws: VehicleSpawning.Draws)

  predicate ValidEvent(cfg: Config, e: Event) {
    e.Frame? ==> VehicleSpawning.ValidDraws(cfg.spawner, e.draws)
  }

  /** A frame of the spawner, registering the car it spawns, if any. */
  function SpawnFrame(cfg: Config, g: Game, now: real, d: VehicleSpawning.Draws): (r: Game)
    requires VehicleSpawning.ValidDraws(cfg.spawner, d)
    ensures r.score == g.score && r.controllerPresent == g.controllerPresent
    ensures r.session.gameEnded == g.session.gameEnded
    ensures r.session.spawner.Some? <==> g.session.spawner.Some?
    ensures g.session.spawner.Some? ==>
              r.session.spawner.value.spawningEnabled == g.session.spawner.value.spawningEnabled
    ensures g.session.spawner.None? || !g.session.spawner.value.spawningEnabled ==> r == g
    ensures r.nextCarId == g.nextCarId ==> r.session.registry == g.session.registry
    ensures r.nextCarId != g.nextCarId ==>
              && r.nextCarId == g.nextCarId + 1
              && var k := |g.session.registry|;
                 && |r.session.registry| == k + 1
                 && r.session.registry[..k] == g.session.registry
                 && r.session.registry[k].Some?
                 && r.session.registry[k].value.id == g.nextCarId
                 && 0 <= r.session.registry[k].value.lane < VehicleSpawning.SlotCount(cfg.spawner.laneSpawnPoints)
    ensures g.session.spawner.Some? ==>
              var t := VehicleSpawning.Update(cfg.spawner, g.session.spawner.value, now, d);
              && r.session.spawner == Some(t.state)
              && (r.nextCarId == g.nextCarId + 1 <==>
                    t.attempt.Some? && t.attempt.value.Spawned? && t.attempt.value.setup.Some?)
              && (r.nextCarId == g.nextCarId + 1 ==>
                    r.session.registry[|g.session.registry|].value.lane == t.attempt.value.lane)
  {
    match g.session.spawner
    case None => g
    case Some(sp) =>
      var t := VehicleSpawning.Update(cfg.spawner, sp, now, d);
      var g' := g.(session := g.session.(spawner := Some(t.state)));
      match t.attempt
      case Some(Spawned(lane, _, Some(_))) =>
        g'.(session := g'.session.(registry := g.session.registry + [Some(Car(g.nextCarId, lane))]),
            nextCarId := g.nextCarId + 1)
      case _ => g'
  }

  function Step(cfg: Config, g: Game, e: Event): (r: Outcome)
    requires ValidEvent(cfg, e)
    ensures e.Frame? ==> r.destroyed == [] && r.scene == None
  {
    match e
    case Scored(k) =>
      var ev := Score.Apply(cfg.score, g.score, k);
      HandleRequest(cfg, g.(score := ev.score), ev.request)
    case Frame(now, d) => Outcome(SpawnFrame(cfg, g, now, d), [], None)
  }

  /** A run of events: the final state, every destroyed car, and per event
      the scene it requested. */
  datatype Trace = Trace(game: Game, destroyed: seq<Car>, scenes: seq<Option<string>>)

  predicate ValidEvents(cfg: Config, es: seq<Event>) {
    forall i :: 0 <= i < |es| ==> ValidEvent(cfg, es[i])
  }

  function RunGame(cfg: Config, g: Game, es: seq<Event>): (t: Trace)
    requires ValidEvents(cfg, es)
    ensures |t.scenes| == |es|
    decreases |es|
  {
    if |es| == 0 then Trace(g, [], [])
    else
      var o := Step(cfg, g, es[0]);
      var rest := RunGame(cfg, o.game, es[1..]);
      Trace(rest.game, o.destroyed + rest.destroyed, [o.scene] + rest.scenes)
  }

  lemma ValidConcat(cfg: Config, a: seq<Event>, b: seq<Event>)
    requires ValidEvents(cfg, a) && ValidEvents(cfg, b)
    ensures ValidEvents(cfg, a + b)
  {
  }

  lemma {:induction false} RunGameConcat(cfg: Config, g: Game, a: seq<Event>, b: seq<Event>)
    requires ValidEvents(cfg, a) && ValidEvents(cfg, b)
    ensures ValidEvents(cfg, a + b)
    ensures var ta := RunGame(cfg, g, a);
            var tb := RunGame(cfg, ta.game, b);
            RunGame(cfg, g, a + b) == Trace(tb.game, ta.destroyed + tb.destroyed, ta.scenes + tb.scenes)
    decreases |a|
  {
    ValidConcat(cfg, a, b);
    if |a| == 0 {
      assert a + b == b;
    } else {
      var o := Step(cfg, g, a[0]);
      var a' := a[1..];
      assert ValidEvents(cfg, a') by {
        forall i | 0 <= i < |a'| ensures ValidEvent(cfg, a'[i]) { assert a'[i] == a[i + 1]; }
      }
      assert (a + b)[0] == a[0];
      assert (a + b)[1..] == a' + b;
      RunGameConcat(cfg, o.game, a', b);
      var ta' := RunGame(cfg, o.game, a');
      var tb := RunGame(cfg, ta'.game, b);
      calc {
        RunGame(cfg, g, a + b);
        Trace(RunGame(cfg, o.game, a' + b).game, o.destroyed + RunGame(cfg, o.game, a' + b).destroyed,
              [o.scene] + RunGame(cfg, o.game, a' + b).scenes);
        Trace(tb.game, o.destroyed + (ta'.destroyed + tb.destroyed), [o.scene] + (ta'.scenes + tb.scenes));
        { assert o.destroyed + (ta'.destroyed + tb.destroyed) == (o.destroyed + ta'.destroyed) + tb.destroyed;
          assert [o.scene] + (ta'.scenes + tb.scenes) == ([o.scene] + ta'.scenes) + tb.scenes; }
        Trace(tb.game, (o.destroyed + ta'.destroyed) + tb.destroyed, ([o.scene] + ta'.scenes) + tb.scenes);
      }
    }
  }

  /** The latch holds at the level of the whole game: once the session has
      ended and its spawner is off, no run of events, score or frame, spawns
      a car, destroys a car, requests a scene or touches the session. */
  lemma {:induction false} EndedGameStaysEnded(cfg: Config, g: Game, es: seq<Event>)
    requires ValidEvents(cfg, es)
    requires g.controllerPresent && g.session.gameEnded
    requires g.session.spawner.None? || !g.session.spawner.value.spawningEnabled
    ensures RunGame(cfg, g, es).game.session == g.session
    ensures RunGame(cfg, g, es).game.nextCarId == g.nextCarId
    ensures RunGame(cfg, g, es).destroyed == []
    ensures forall i :: 0 <= i < |es| ==> RunGame(cfg, g, es).scenes[i] == None
    decreases |es|
  {
    if |es| > 0 {
      var o := Step(cfg, g, es[0]);
      assert o.game.session == g.session && o.game.nextCarId == g.nextCarId;
      assert o.destroyed == [] && o.scene == None;
      assert o.game.controllerPresent;
      EndedGameStaysEnded(cfg, o.game, es[1..]);
    }
  }

  /** Score events only, as game events. */
  function Scores(ks: seq<Score.Kind>): (es: seq<Event>)
    ensures |es| == |ks|
    ensures forall i :: 0 <= i < |ks| ==> es[i] == Scored(ks[i])
  {
    seq(|ks|, i requires 0 <= i < |ks| => Scored(ks[i]))
  }

  /** Score events that issue no end request leave everything but the score
      as it was, and the score follows the tracker's own run. */
  lemma {:induction false} QuietScoresTouchNothing(cfg: Config, g: Game, ks: seq<Score.Kind>)
    requires forall i :: 0 <= i < |ks| ==> Score.RunEvents(cfg.score, g.score, ks).requests[i] == None
    ensures ValidEvents(cfg, Scores(ks))
    ensures RunGame(cfg, g, Scores(ks))
         == Trace(g.(score := Score.RunEvents(cfg.score, g.score, ks).score), [], Repeat<Option<string>>(None, |ks|))
    decreases |ks|
  {
    if |ks| > 0 {
      var ev := Score.Apply(cfg.score, g.score, ks[0]);
      assert Score.RunEvents(cfg.score, g.score, ks).requests[0] == ev.request;
      var g1 := g.(score := ev.score);
      assert Scores(ks)[1..] == Scores(ks[1..]);
      forall i | 0 <= i < |ks| - 1
        ensures Score.RunEvents(cfg.score, ev.score, ks[1..]).requests[i] == None
      {
        assert Score.RunEvents(cfg.score, g.score, ks).requests[i + 1]
            == Score.RunEvents(cfg.score, ev.score, ks[1..]).requests[i];
      }
      QuietScoresTouchNothing(cfg, g1, ks[1..]);
      assert Repeat<Option<string>>(None, |ks|) == [None] + Repeat<Option<string>>(None, |ks| - 1);
    }
  }

  /** With the shipped thresholds, a session controller and a running
      spawner, ten crashes from a score of 0 end the game exactly once, on
      the tenth crash: the first nine request nothing, the tenth stops the
      spawner, destroys every car in the registry and requests the lose
      scene. */
  lemma LossOnTenthCrash(cfg: Config, g: Game)
    requires cfg.score.winScore == Score.Defaults.winScore && cfg.score.loseScore == Score.Defaults.loseScore
    requires g.score == 0 && g.controllerPresent && !g.session.gameEnded
    requires g.session.spawner.Some? && g.session.spawner.value.spawningEnabled
    ensures ValidEvents(cfg, Scores(Repeat(Score.Crashed, 10)))
    ensures var t := RunGame(cfg, g, Scores(Repeat(Score.Crashed, 10)));
            && t.scenes == Repeat<Option<string>>(None, 9) + [SceneRequest(cfg.session.winSceneName, cfg.session.loseSceneName, false)]
            && t.game.score == -10
            && t.game.session.gameEnded
            && t.game.session.spawner.Some?
            && !t.game.session.spawner.value.spawningEnabled
            && NoCars(t.game.session.registry)
            && (forall c :: c in t.destroyed <==> Some(c) in g.session.registry)
  {
    var nine := Repeat(Score.Crashed, 9);
    Score.QuietFall(cfg.score, 0, 9);
    QuietScoresTouchNothing(cfg, g, nine);
    assert Scores(Repeat(Score.Crashed, 10)) == Scores(nine) + [Scored(Score.Crashed)];
    RunGameConcat(cfg, g, Scores(nine), [Scored(Score.Crashed)]);
  }

  /** With the shipped thresholds, a session controller and a running
      spawner, thirty successes from a score of 0 end the game once, on the
      thirtieth, with the win scene. */
  lemma WinOnThirtiethSuccess(cfg: Config, g: Game)
    requires cfg.score.winScore == Score.Defaults.winScore && cfg.score.loseScore == Score.Defaults.loseScore
    requires g.score == 0 && g.controllerPresent && !g.session.gameEnded
    requires g.session.spawner.Some? && g.session.spawner.value.spawningEnabled
    ensures ValidEvents(cfg, Scores(Repeat(Score.Guided, 30)))
    ensures var t := RunGame(cfg, g, Scores(Repeat(Score.Guided, 30)));
            && t.scenes == Repeat<Option<string>>(None, 29) + [SceneRequest(cfg.session.winSceneName, cfg.session.loseSceneName, true)]
            && t.game.score == 30
            && t.game.session.gameEnded
            && t.game.session.spawner.Some?
            && !t.game.session.spawner.value.spawningEnabled
            && NoCars(t.game.session.registry)
            && (forall c :: c in t.destroyed <==> Some(c) in g.session.registry)
  {
    var some := Repeat(Score.Guided, 29);
    Score.QuietClimb(cfg.score, 0, 29);
    QuietScoresTouchNothing(cfg, g, some);
    assert Scores(Repeat(Score.Guided, 30)) == Scores(some) + [Scored(Score.Guided)];
    RunGameConcat(cfg, g, Scores(some), [Scored(Score.Guided)]);
  }

  /** Without a session controller nothing latches: each crash that leaves
      the score at or below the lose threshold requests the tracker's lose
      scene again. */
  lemma NoControllerNoLatch(cfg: Config, g: Game)
    requires !g.controllerPresent
    requires Score.Int32Min < g.score <= cfg.score.loseScore + 1
    requires g.score - 1 < cfg.score.winScore
    ensures var o := Step(cfg, g, Scored(Score.Crashed));
            && o.scene == SceneRequest(cfg.score.winSceneName, cfg.score.loseSceneName, false)
            && o.game == g.(score := g.score - 1)
            && o.destroyed == []
  {
  }

  /** Registry identities are fresh and distinct: every registered car's id
      is below the next id to hand out, and no two entries share an id. */
  predicate FreshIds(g: Game) {
    var reg := g.session.registry;
    && (forall k :: 0 <= k < |reg| && reg[k].Some? ==> reg[k].value.id < g.nextCarId)
    && (forall j, k :: 0 <= j < k < |reg| && reg[j].Some? && reg[k].Some? ==> reg[j].value.id != reg[k].value.id)
  }

  /** Every event keeps registry identities fresh and distinct, so the
      targeting and clearing logic never sees two entries for one car. */
  lemma StepKeepsIdsFresh(cfg: Config, g: Game, e: Event)
    requires ValidEvent(cfg, e)
    requires FreshIds(g)
    ensures FreshIds(Step(cfg, g, e).game)
  {
  }
}

=== FILE: player.dfy ===
/**
 The operator (the traffic officer). It stands in one lane, moves one lane
 left or right on the arrow keys, clamped to the lanes that exist, and
 sends a command with the A/W/D/S keys to the nearest car in its lane.
 How near a car is comes from the engine's positions, so it is a distance
 function argument here; the officer's smooth movement and its sprites are
 presentation and not part of this model.
 */
module Operator {
  import opened Engine
  import opened Cars

  /** The commands a car accepts, in `CarCommandType`'s declaration order. */
  datatype Command = NoCommand | Stop | Straight | Left | Right

  /** The keys that went down this frame. */
  datatype Keys = Keys(leftArrow: bool, rightArrow: bool, a: bool, w: bool, d: bool, s: bool)

  /** The lane-position array: null, or a sequence of possibly-null anchors.
      Its length bounds the lane index, and moving onto a null slot throws
      when its position is read. */
  type Lanes = Option<seq<Option<Anchor>>>

  function LaneCount(lanes: Lanes): nat {
    match lanes
    case None => 0
    case Some(ls) => |ls|
  }

  /** Start-up: pulls the initial lane index into range when lanes exist. */
  function Start(lanes: Lanes, current: int): (r: int)
    ensures LaneCount(lanes) == 0 ==> r == current
    ensures LaneCount(lanes) > 0 ==> 0 <= r < LaneCount(lanes)
    ensures 0 <= current < LaneCount(lanes) ==> r == current
  {
    if LaneCount(lanes) > 0 then Clamp(current, 0, LaneCount(lanes) - 1) else current
  }

  /** A lane change: the new lane index, whether it moved (only then is the
      officer retargeted and its sprites refreshed), and whether retargeting
      threw because the new lane's position slot is null. The index is
      stored before the throw, so a faulted change still moves the lane. */
  datatype LaneChange = LaneChange(lane: int, moved: bool, faulted: bool)

  /** The new lane's slot is null: reading its position throws. */
  predicate NullSlot(lanes: Lanes, lane: int) {
    lanes.Some? && 0 <= lane < |lanes.value| && lanes.value[lane].None?
  }

  function ChangeLane(lanes: Lanes, current: int, delta: int): (r: LaneChange)
    ensures LaneCount(lanes) == 0 ==> r == LaneChange(current, false, false)
    ensures LaneCount(lanes) > 0 ==> 0 <= r.lane <= LaneCount(lanes) - 1
    ensures r.moved <==> r.lane != current
    ensures r.faulted <==> r.moved && NullSlot(lanes, r.lane)
    ensures LaneCount(lanes) > 0 && 0 <= current + delta < LaneCount(lanes) ==> r.lane == current + delta
    ensures LaneCount(lanes) > 0 && current + delta < 0 ==> r.lane == 0
    ensures LaneCount(lanes) > 0 && current + delta >= LaneCount(lanes) ==> r.lane == LaneCount(lanes) - 1
  {
    if LaneCount(lanes) == 0 then LaneChange(current, false, false)
    else
      var newIndex := Clamp(current + delta, 0, LaneCount(lanes) - 1);
      if newIndex != current then LaneChange(newIndex, true, lanes.value[newIndex].None?)
      else LaneChange(current, false, false)
  }

  /** The arrow keys: left gives -1, right gives +1, left wins when both are
      down, and neither gives no lane change. */
  function LaneDelta(keys: Keys): (delta: int)
    ensures delta == -1 <==> keys.leftArrow
    ensures delta == 1 <==> !keys.leftArrow && keys.rightArrow
    ensures delta == 0 <==> !keys.leftArrow && !keys.rightArrow
  {
    if keys.leftArrow then -1 else if keys.rightArrow then 1 else 0
  }

  /** Lane input for one frame; no keyboard or no arrow key means no change. */
  function HandleLaneInput(keyboard: Option<Keys>, lanes: Lanes, current: int): (r: LaneChange)
    ensures keyboard.None? ==> r == LaneChange(current, false, false)
    ensures keyboard.Some? && LaneDelta(keyboard.value) == 0 ==> r == LaneChange(current, false, false)
    ensures keyboard.Some? && LaneDelta(keyboard.value) != 0 ==>
              r == ChangeLane(lanes, current, LaneDelta(keyboard.value))
  {
    match keyboard
    case None => LaneChange(current, false, false)
    case Some(kb) =>
      if kb.leftArrow then ChangeLane(lanes, current, -1)
      else if kb.rightArrow then ChangeLane(lanes, current, 1)
      else LaneChange(current, false, false)
  }

  /** The command keys, checked in the order A, W, D, S; the first one down
      decides. As bound, A sends `Right` and D sends `Left`. */
  function KeyCommand(keys: Keys): (c: Option<Command>)
    ensures c.Some? ==> c.value != NoCommand
  {
    if keys.a then Some(Right)
    else if keys.w then Some(Straight)
    else if keys.d then Some(Left)
    else if keys.s then Some(Stop)
    else None
  }

  /** The key each command is bound to. */
  function BoundKeyDown(keys: Keys, c: Command): bool {
    match c
    case Right => keys.a
    case Straight => keys.w
    case Left => keys.d
    case Stop => keys.s
    case NoCommand => false
  }

  /** The binding priority: lower ranks are checked first. */
  function Rank(c: Command): nat {
    match c
    case Right => 0
    case Straight => 1
    case Left => 2
    case Stop => 3
    case NoCommand => 4
  }

  /** The key mapping against its reference description: a command is sent
      exactly when its key is down and no key of a higher-priority command
      is, and no command is sent when none of the four keys is down. */
  lemma KeyCommandByPriority(keys: Keys, c: Command)
    ensures KeyCommand(keys) == Some(c) <==>
              BoundKeyDown(keys, c) && forall c' :: Rank(c') < Rank(c) ==> !BoundKeyDown(keys, c')
    ensures KeyCommand(keys).None? <==> forall c' :: !BoundKeyDown(keys, c')
  {
    if KeyCommand(keys) == Some(c) {
      forall c' | Rank(c') < Rank(c) ensures !BoundKeyDown(keys, c') {
      }
    }
    if KeyCommand(keys).None? {
      forall c' ensures !BoundKeyDown(keys, c') {
      }
    } else {
      assert BoundKeyDown(keys, KeyCommand(keys).value);
    }
  }

  /** A registry entry that holds a car in the given lane. */
  predicate InLane(reg: Registry, k: int, lane: int)
    requires 0 <= k < |reg|
  {
    reg[k].Some? && reg[k].value.lane == lane
  }

  /** `best` is the answer of the nearest-car scan over the first `n`
      entries: null when none of them holds a car in the lane, otherwise
      the index of a car in the lane that is no farther than any other such
      car and strictly nearer than every such car before it. */
  ghost predicate NearestAmong(reg: Registry, lane: int, dist: Car -> real, n: nat, best: Option<nat>)
    requires n <= |reg|
  {
    match best
    case None => forall k :: 0 <= k < n ==> !InLane(reg, k, lane)
    case Some(b) =>
      && b < n
      && InLane(reg, b, lane)
      && (forall k :: 0 <= k < n && InLane(reg, k, lane) ==> dist(reg[b].value) <= dist(reg[k].value))
      && (forall k :: 0 <= k < b && InLane(reg, k, lane) ==> dist(reg[b].value) < dist(reg[k].value))
  }

  /** The scan from entry `i` on, carrying the best index so far; a car
      replaces the best only when strictly nearer, so the earliest of equally
      near cars is kept. */
  function ScanNearest(reg: Registry, lane: int, dist: Car -> real, i: nat, best: Option<nat>): (r: Option<nat>)
    requires i <= |reg|
    requires NearestAmong(reg, lane, dist, i, best)
    ensures NearestAmong(reg, lane, dist, |reg|, r)
    decreases |reg| - i
  {
    if i == |reg| then best
    else
      var best' :=
        if !InLane(reg, i, lane) then best
        else if best.None? || dist(reg[i].value) < dist(reg[best.value].value) then Some(i)
        else best;
      ScanNearest(reg, lane, dist, i + 1, best')
  }

  /** The registry index of the nearest car in a lane, or null when the lane
      holds no car. */
  function FindNearestCarInLane(reg: Registry, lane: int, dist: Car -> real): (r: Option<nat>)
    ensures r.None? <==> forall k :: 0 <= k < |reg| ==> !InLane(reg, k, lane)
    ensures r.Some? ==>
              && r.value < |reg|
              && InLane(reg, r.value, lane)
              && (forall k :: 0 <= k < |reg| && InLane(reg, k, lane) ==> dist(reg[r.value].value) <= dist(reg[k].value))
              && (forall k :: 0 <= k < r.value && InLane(reg, k, lane) ==> dist(reg[r.value].value) < dist(reg[k].value))
  {
    ScanNearest(reg, lane, dist, 0, None)
  }

  /** The selection is determined by its description: any index meeting it
      is the one the scan returns. */
  lemma NearestIsUnique(reg: Registry, lane: int, dist: Car -> real, b: nat)
    requires b < |reg| && NearestAmong(reg, lane, dist, |reg|, Some(b))
    ensures FindNearestCarInLane(reg, lane, dist) == Some(b)
  {
  }

  /** What one frame's command input does. */
  datatype Dispatch =
    | Silent                              // no command this frame
    | Unanswered(command: Command)        // a command, but no car in the lane
    | Sent(target: nat, command: Command) // a command applied to the car at this registry index

  function SendCommandToCurrentLane(reg: Registry, lane: int, dist: Car -> real, command: Command): (r: Dispatch)
    ensures r.Unanswered? || r.Sent?
    ensures r.command == command
    ensures r.Unanswered? <==> forall k :: 0 <= k < |reg| ==> !InLane(reg, k, lane)
    ensures r.Sent? ==> r.target < |reg| && InLane(reg, r.target, lane)
    ensures r.Sent? ==> FindNearestCarInLane(reg, lane, dist) == Some(r.target)
  {
    match FindNearestCarInLane(reg, lane, dist)
    case None => Unanswered(command)
    case Some(k) => Sent(k, command)
  }

  function HandleCommandInput(reg: Registry, keyboard: Option<Keys>, lane: int, dist: Car -> real): (r: Dispatch)
    ensures |reg| == 0 ==> r == Silent
    ensures keyboard.None? ==> r == Silent
    ensures r.Silent? <==> |reg| == 0 || keyboard.None? || KeyCommand(keyboard.value).None?
    ensures !r.Silent? ==> r.command == KeyCommand(keyboard.value).value
    ensures !r.Silent? ==> r == SendCommandToCurrentLane(reg, lane, dist, r.command)
    ensures r.Sent? ==> FindNearestCarInLane(reg, lane, dist) == Some(r.target)
  {
    if |reg| == 0 then Silent
    else match keyboard
      case None => Silent
      case Some(kb) =>
        match KeyCommand(kb)
        case None => Silent
        case Some(c) => SendCommandToCurrentLane(reg, lane, dist, c)
  }

  /** One frame of the operator: lane input first, then command input from
      the lane it ends in. When the lane change throws, the rest of the
      frame is abandoned: the new lane index stays, and no command is sent. */
  datatype FrameResult = FrameResult(lane: int, dispatch: Dispatch)

  function Update(lanes: Lanes, current: int, keyboard: Option<Keys>, reg: Registry, dist: Car -> real): (r: FrameResult)
    ensures r.lane == HandleLaneInput(keyboard, lanes, current).lane
    ensures 0 <= current < LaneCount(lanes) ==> 0 <= r.lane < LaneCount(lanes)
    ensures r.lane != current && NullSlot(lanes, r.lane) ==> r.dispatch == Silent
    ensures !(r.lane != current && NullSlot(lanes, r.lane)) ==>
              r.dispatch == HandleCommandInput(reg, keyboard, r.lane, dist)
  {
    var lc := HandleLaneInput(keyboard, lanes, current);
    if lc.faulted then FrameResult(lc.lane, Silent)
    else FrameResult(lc.lane, HandleCommandInput(reg, keyboard, lc.lane, dist))
  }

  /** The officer never leaves the lanes: from an in-range lane, any run of
      frames keeps the lane index in range. */
  lemma {:induction false} LaneStaysInRange(lanes: Lanes, current: int, inputs: seq<Option<Keys>>)
    requires 0 <= current < LaneCount(lanes)
    ensures 0 <= LaneAfter(lanes, current, inputs) < LaneCount(lanes)
    decreases |inputs|
  {
    if |inputs| > 0 {
      LaneStaysInRange(lanes, HandleLaneInput(inputs[0], lanes, current).lane, inputs[1..]);
    }
  }

  /** The lane after a run of frames' lane input. */
  function LaneAfter(lanes: Lanes, current: int, inputs: seq<Option<Keys>>): int
    decreases |inputs|
  {
    if |inputs| == 0 then current
    else LaneAfter(lanes, HandleLaneInput(inputs[0], lanes, current).lane, inputs[1..])
  }
}

=== FILE: score.dfy ===
/**
 The score tracker. It keeps one 32-bit integer score that a correctly
 guided car raises by one and a crash lowers by one. After every change it
 compares the score with a win threshold (checked first) and a lose
 threshold and, when either is reached, issues a game-end request. It has
 no latch of its own: while the score stays past a threshold, every further
 event issues the request again. The one latch lives in the session
 controller that the request is delegated to.
 */
module Score {
  import opened Engine

  const Int32Min: int := -0x8000_0000
  const Int32Max: int := 0x7fff_ffff

  /** The source's `int`. */
  type int32 = x: int | Int32Min <= x <= Int32Max

  /** Unchecked `++` on a 32-bit integer: the largest value wraps to the smallest. */
  function Increment(x: int32): (r: int32)
    ensures x < Int32Max ==> r == x + 1
    ensures x == Int32Max ==> r == Int32Min
  {
    if x == Int32Max then Int32Min else x + 1
  }

  /** Unchecked `--` on a 32-bit integer: the smallest value wraps to the largest. */
  function Decrement(x: int32): (r: int32)
    ensures x > Int32Min ==> r == x - 1
    ensures x == Int32Min ==> r == Int32Max
  {
    if x == Int32Min then Int32Max else x - 1
  }

  /** The tracker's inspector settings. */
  datatype Config = Config(
    winScore: int32,
    loseScore: int32,
    winSceneName: string,   // fallback scenes, used only without a session controller
    loseSceneName: string)

  /** The shipped thresholds: win at 30 or more, lose at -10 or less. */
  const Defaults := Config(30, -10, "", "")

  /** The outcome of one threshold check: `Some(win)` is a game-end request. */
  type Request = Option<bool>

  /** The threshold check run after every score change. */
  function CheckEndGame(cfg: Config, score: int32): (r: Request)
    ensures r == Some(true) <==> score >= cfg.winScore
    ensures r == Some(false) <==> score < cfg.winScore && score <= cfg.loseScore
    ensures r == None <==> cfg.loseScore < score < cfg.winScore
  {
    if score >= cfg.winScore then Some(true)
    else if score <= cfg.loseScore then Some(false)
    else None
  }

  /** The new score after one event, and the end request (if any) it issued. */
  datatype Event = Event(score: int32, request: Request)

  /** A car was guided correctly: one point up, then the threshold check. */
  function OnCarGuidedSuccessfully(cfg: Config, score: int32): (r: Event)
    ensures score < Int32Max ==> r.score == score + 1
    ensures score == Int32Max ==> r.score == Int32Min
    ensures r.request == Some(true) <==> r.score >= cfg.winScore
    ensures r.request == Some(false) <==> r.score < cfg.winScore && r.score <= cfg.loseScore
    ensures r.request == None <==> cfg.loseScore < r.score < cfg.winScore
  {
    var score' := Increment(score);
    Event(score', CheckEndGame(cfg, score'))
  }

  /** Two cars crashed: one point down, then the threshold check. */
  function OnCarCrash(cfg: Config, score: int32): (r: Event)
    ensures score > Int32Min ==> r.score == score - 1
    ensures score == Int32Min ==> r.score == Int32Max
    ensures r.request == Some(true) <==> r.score >= cfg.winScore
    ensures r.request == Some(false) <==> r.score < cfg.winScore && r.score <= cfg.loseScore
    ensures r.request == None <==> cfg.loseScore < r.score < cfg.winScore
  {
    var score' := Decrement(score);
    Event(score', CheckEndGame(cfg, score'))
  }

  /** What handling an end request does: hand it to the session controller
      when one exists, otherwise load the tracker's own outcome scene, or
      nothing when that scene name is empty. */
  datatype EndAction = Delegate(win: bool) | LoadScene(name: string) | NoTransition

  function HandleEnd(cfg: Config, controllerPresent: bool, win: bool): (r: EndAction)
    ensures controllerPresent ==> r == Delegate(win)
    ensures !controllerPresent && win ==> r == (if cfg.winSceneName == [] then NoTransition else LoadScene(cfg.winSceneName))
    ensures !controllerPresent && !win ==> r == (if cfg.loseSceneName == [] then NoTransition else LoadScene(cfg.loseSceneName))
  {
    if controllerPresent then Delegate(win)
    else
      match SceneRequest(cfg.winSceneName, cfg.loseSceneName, win)
      case Some(name) => LoadScene(name)
      case None => NoTransition
  }

  /** With misconfigured thresholds that let a score be both a win and a
      loss, only the win is requested. */
  lemma WinTakesPrecedence(cfg: Config, score: int32)
    requires score >= cfg.winScore && score <= cfg.loseScore
    ensures CheckEndGame(cfg, score) == Some(true)
  {
  }

  /** The two kinds of score event. */
  datatype Kind = Guided | Crashed

  function Apply(cfg: Config, score: int32, k: Kind): Event {
    match k
    case Guided => OnCarGuidedSuccessfully(cfg, score)
    case Crashed => OnCarCrash(cfg, score)
  }

  /** A run of events from a starting score: the final score and, per event,
      the request that event issued. */
  datatype Run = Run(score: int32, requests: seq<Request>)

  function RunEvents(cfg: Config, score: int32, events: seq<Kind>): (r: Run)
    ensures |r.requests| == |events|
    decreases |events|
  {
    if |events| == 0 then Run(score, [])
    else
      var e := Apply(cfg, score, events[0]);
      var rest := RunEvents(cfg, e.score, events[1..]);
      Run(rest.score, [e.request] + rest.requests)
  }

  /** No latch: once the score is at or past the win threshold, every further
      success issues another win request (short of 32-bit wrap-around). */
  lemma {:induction false} NoLatchPastWin(cfg: Config, score: int32, n: nat)
    requires score >= cfg.winScore
    requires score + n <= Int32Max
    ensures RunEvents(cfg, score, Repeat(Guided, n)).requests == Repeat(Some(true), n)
    ensures RunEvents(cfg, score, Repeat(Guided, n)).score == score + n
    decreases n
  {
    if n > 0 {
      var e := OnCarGuidedSuccessfully(cfg, score);
      assert Repeat(Guided, n)[1..] == Repeat(Guided, n - 1);
      NoLatchPastWin(cfg, e.score, n - 1);
      assert Repeat(Some(true), n) == [Some(true)] + Repeat(Some(true), n - 1);
    }
  }

  /** No latch: once the score is at or below the lose threshold (and below
      the win threshold), every further crash issues another lose request. */
  lemma {:induction false} NoLatchPastLoss(cfg: Config, score: int32, n: nat)
    requires score <= cfg.loseScore && score < cfg.winScore
    requires score - n >= Int32Min
    ensures RunEvents(cfg, score, Repeat(Crashed, n)).requests == Repeat(Some(false), n)
    ensures RunEvents(cfg, score, Repeat(Crashed, n)).score == score - n
    decreases n
  {
    if n > 0 {
      var e := OnCarCrash(cfg, score);
      assert Repeat(Crashed, n)[1..] == Repeat(Crashed, n - 1);
      NoLatchPastLoss(cfg, e.score, n - 1);
      assert Repeat(Some(false), n) == [Some(false)] + Repeat(Some(false), n - 1);
    }
  }

  /** Successes that stay strictly between the thresholds raise the score one
      by one and request nothing. */
  lemma {:induction false} QuietClimb(cfg: Config, score: int32, n: nat)
    requires cfg.loseScore < score
    requires score + n < cfg.winScore
    ensures RunEvents(cfg, score, Repeat(Guided, n)).requests == Repeat(None, n)
    ensures RunEvents(cfg, score, Repeat(Guided, n)).score == score + n
    decreases n
  {
    if n > 0 {
      var e := OnCarGuidedSuccessfully(cfg, score);
      assert Repeat(Guided, n)[1..] == Repeat(Guided, n - 1);
      QuietClimb(cfg, e.score, n - 1);
      assert Repeat<Request>(None, n) == [None] + Repeat<Request>(None, n - 1);
    }
  }

  /** Crashes that stay strictly between the thresholds lower the score one
      by one and request nothing. */
  lemma {:induction false} QuietFall(cfg: Config, score: int32, n: nat)
    requires score < cfg.winScore
    requires cfg.loseScore < score - n
    ensures RunEvents(cfg, score, Repeat(Crashed, n)).requests == Repeat(None, n)
    ensures RunEvents(cfg, score, Repeat(Crashed, n)).score == score - n
    decreases n
  {
    if n > 0 {
      var e := OnCarCrash(cfg, score);
      assert Repeat(Crashed, n)[1..] == Repeat(Crashed, n - 1);
      QuietFall(cfg, e.score, n - 1);
      assert Repeat<Request>(None, n) == [None] + Repeat<Request>(None, n - 1);
    }
  }

  lemma {:induction false} RunConcat(cfg: Config, score: int32, a: seq<Kind>, b: seq<Kind>)
    ensures RunEvents(cfg, score, a + b).requests
         == RunEvents(cfg, score, a).requests + RunEvents(cfg, RunEvents(cfg, score, a).score, b).requests
    ensures RunEvents(cfg, score, a + b).score
         == RunEvents(cfg, RunEvents(cfg, score, a).score, b).score
    decreases |a|
  {
    if |a| > 0 {
      var e := Apply(cfg, score, a[0]);
      assert (a + b)[0] == a[0];
      assert (a + b)[1..] == a[1..] + b;
      RunConcat(cfg, e.score, a[1..], b);
    } else {
      assert a + b == b;
    }
  }

  /** With the shipped thresholds and a start at 0, thirty successes in a row
      issue nothing for the first twenty-nine and a win request on the
      thirtieth. */
  lemma DefaultWinOnThirtiethSuccess()
    ensures RunEvents(Defaults, 0, Repeat(Guided, 30)).requests == Repeat(None, 29) + [Some(true)]
    ensures RunEvents(Defaults, 0, Repeat(Guided, 30)).score == 30
  {
    assert Repeat(Guided, 30) == Repeat(Guided, 29) + [Guided];
    QuietClimb(Defaults, 0, 29);
    RunConcat(Defaults, 0, Repeat(Guided, 29), [Guided]);
  }

  /** With the shipped thresholds and a start at 0, ten crashes in a row
      issue nothing for the first nine and a lose request on the tenth. */
  lemma DefaultLossOnTenthCrash()
    ensures RunEvents(Defaults, 0, Repeat(Crashed, 10)).requests == Repeat(None, 9) + [Some(false)]
    ensures RunEvents(Defaults, 0, Repeat(Crashed, 10)).score == -10
  {
    assert Repeat(Crashed, 10) == Repeat(Crashed, 9) + [Crashed];
    QuietFall(Defaults, 0, 9);
    RunConcat(Defaults, 0, Repeat(Crashed, 9), [Crashed]);
  }
}

=== FILE: session.dfy ===
/**
 The session controller. It switches the controllable-car spawner on at
 start-up and owns the game's one end-of-game latch. The first end request
 stops the spawner, destroys every car in the registry and picks the
 outcome scene; every later request does nothing.

 Destroying a car is deferred by the engine to the end of the frame, when
 the car unregisters itself; the registry given here is the one after that
 has happened.
 */
module Session {
  import opened Engine
  import opened Cars
  import VehicleSpawning

  /** The outcome scene names; an empty name means "stay in this scene". */
  datatype Config = Config(winSceneName: string, loseSceneName: string)

  /** What the controller acts on: its latch, the spawner it references
      (possibly none) and the live-car registry. */
  datatype Session = Session(
    gameEnded: bool,
    spawner: Option<VehicleSpawning.SpawnerState>,
    registry: Registry)

  /** Start-up: switches the referenced spawner on, if there is one. */
  function Start(spawnCfg: VehicleSpawning.Config, s: Session, now: real, u: real): (s': Session)
    requires 0.0 <= u <= 1.0
    ensures s'.gameEnded == s.gameEnded && s'.registry == s.registry
    ensures s'.spawner.Some? <==> s.spawner.Some?
    ensures s'.spawner.Some? ==> s'.spawner.value.spawningEnabled
    ensures s'.spawner.Some? && spawnCfg.spawnIntervalMin <= spawnCfg.spawnIntervalMax ==>
              now + spawnCfg.spawnIntervalMin <= s'.spawner.value.nextSpawnTime <= now + spawnCfg.spawnIntervalMax
  {
    match s.spawner
    case None => s
    case Some(sp) => s.(spawner := Some(VehicleSpawning.StartSpawning(spawnCfg, sp, now, u)))
  }

  /** The result of an end request: the new session, the cars destroyed (in
      registry order) and the scene requested, if any. */
  datatype EndResult = EndResult(session: Session, destroyed: seq<Car>, scene: Option<string>)

  function EndGame(cfg: Config, s: Session, win: bool): (r: EndResult)
    ensures s.gameEnded ==> r == EndResult(s, [], None)
    ensures !s.gameEnded ==>
              && r.session.gameEnded
              && (r.session.spawner.Some? <==> s.spawner.Some?)
              && (s.spawner.Some? ==>
                    && !r.session.spawner.value.spawningEnabled
                    && r.session.spawner.value.nextSpawnTime == s.spawner.value.nextSpawnTime)
              && (forall c :: c in r.destroyed <==> Some(c) in s.registry)
              && NoCars(r.session.registry)
              && r.scene == SceneRequest(cfg.winSceneName, cfg.loseSceneName, win)
  {
    if s.gameEnded then EndResult(s, [], None)
    else
      var spawner' :=
        match s.spawner
        case None => None
        case Some(sp) => Some(VehicleSpawning.StopSpawning(sp));
      EndResult(
        Session(true, spawner', Cleared(s.registry)),
        Live(s.registry),
        SceneRequest(cfg.winSceneName, cfg.loseSceneName, win))
  }

  /** The end latch: once an end request has been honoured, any further
      request, win or lose, changes nothing and requests no scene. */
  lemma EndGameIsIdempotent(cfg: Config, s: Session, first: bool, second: bool)
    ensures var r := EndGame(cfg, s, first);
            EndGame(cfg, r.session, second) == EndResult(r.session, [], None)
  {
  }

  /** The clearing loop, step by step: it walks a snapshot of the registry
      and destroys every non-null car in it. Because the walk is over the
      snapshot, even a live list that shrank during the walk would not change
      which cars are visited. In the engine the destroyed cars unregister
      after the frame; `live` is the list once they have, built here one
      removal per destroyed car. */
  method ClearAllCars(allCars: Registry) returns (destroyed: seq<Car>, live: Registry)
    ensures destroyed == Live(allCars)
    ensures live == Cleared(allCars)
    ensures NoCars(live)
  {
    var carsCopy := allCars;
    live := allCars;
    destroyed := [];
    var i := 0;
    while i < |carsCopy|
      invariant 0 <= i <= |carsCopy|
      invariant destroyed == Live(carsCopy[..i])
      invariant live == Cleared(carsCopy[..i]) + carsCopy[i..]
    {
      UnregisterStep(carsCopy, i, live);
      match carsCopy[i] {
        case Some(car) =>
          destroyed := destroyed + [car];
          live := RemoveFirst(live, car);
        case None =>
      }
      i := i + 1;
    }
    assert carsCopy[..i] == allCars;
  }

  /** One step of the clearing loop keeps the live list equal to the
      leftovers of the walked prefix followed by the unwalked rest. */
  lemma UnregisterStep(snapshot: Registry, i: nat, live: Registry)
    requires i < |snapshot|
    requires live == Cleared(snapshot[..i]) + snapshot[i..]
    ensures Live(snapshot[..i + 1]) == Live(snapshot[..i]) + (if snapshot[i].Some? then [snapshot[i].value] else [])
    ensures (if snapshot[i].Some? then RemoveFirst(live, snapshot[i].value) else live)
         == Cleared(snapshot[..i + 1]) + snapshot[i + 1..]
  {
    PrefixStep(snapshot, i);
    var done := Cleared(snapshot[..i]);
    var rest := snapshot[i + 1..];
    assert snapshot[i..] == [snapshot[i]] + rest;
    assert live == done + [snapshot[i]] + rest;
    if snapshot[i].Some? {
      RemoveAfterCarFreePrefix(done, snapshot[i].value, rest);
    } else {
      assert live == (done + [None]) + rest;
    }
  }
}

=== FILE: traffic_spawner.dfy ===
/**
 The through-traffic spawner: uncontrollable cars that cross the scene
 from one side to the other. It has no enabled flag. On every frame, once
 the clock reaches the scheduled time, it tries to spawn one car on a
 random side, heading for the exit on the opposite side, and reschedules
 unconditionally.
 */
module ThroughTraffic {
  import opened Engine

  datatype Side = LeftSide | RightSide

  function Opposite(s: Side): Side {
    match s
    case LeftSide => RightSide
    case RightSide => LeftSide
  }

  /** The spawner's inspector settings. `hasController` on the prefab says
      whether it carries the through-traffic car script. */
  datatype Config = Config(
    horizontalCarPrefab: Option<Prefab>,
    spawnLeft: Option<Anchor>,
    spawnRight: Option<Anchor>,
    exitLeft: Option<Anchor>,
    exitRight: Option<Anchor>,
    spawnIntervalMin: real,
    spawnIntervalMax: real)

  function SpawnPoint(cfg: Config, s: Side): Option<Anchor> {
    match s
    case LeftSide => cfg.spawnLeft
    case RightSide => cfg.spawnRight
  }

  function ExitPoint(cfg: Config, s: Side): Option<Anchor> {
    match s
    case LeftSide => cfg.exitLeft
    case RightSide => cfg.exitRight
  }

  /** The only state: when the next car is due. */
  datatype TrafficState = TrafficState(nextSpawnTime: real)

  function ScheduleNextSpawn(cfg: Config, now: real, u: real): (st: TrafficState)
    requires 0.0 <= u <= 1.0
    ensures cfg.spawnIntervalMin <= cfg.spawnIntervalMax ==>
              now + cfg.spawnIntervalMin <= st.nextSpawnTime <= now + cfg.spawnIntervalMax
  {
    TrafficState(now + RangeDraw(cfg.spawnIntervalMin, cfg.spawnIntervalMax, u))
  }

  function Start(cfg: Config, now: real, u: real): (st: TrafficState)
    requires 0.0 <= u <= 1.0
    ensures cfg.spawnIntervalMin <= cfg.spawnIntervalMax ==>
              now + cfg.spawnIntervalMin <= st.nextSpawnTime <= now + cfg.spawnIntervalMax
  {
    ScheduleNextSpawn(cfg, now, u)
  }

  /** One spawn attempt. `Crossing` is a created car: where it came from,
      where it was placed, and the target it was given (null when the prefab
      lacks the car script, which leaves the car without a target). */
  datatype Spawn =
    | NoCar
    | Crossing(from: Side, spawnPoint: Anchor, target: Option<Anchor>)

  /** `coin` is the random value in [0, 1]; above one half means the car
      comes from the left. */
  function SpawnHorizontalCar(cfg: Config, coin: real): (s: Spawn)
    ensures cfg.horizontalCarPrefab.None? ==> s == NoCar
    ensures s.NoCar? <==>
              || cfg.horizontalCarPrefab.None?
              || SpawnPoint(cfg, if coin > 0.5 then LeftSide else RightSide).None?
              || ExitPoint(cfg, Opposite(if coin > 0.5 then LeftSide else RightSide)).None?
    ensures s.Crossing? ==>
              && s.from == (if coin > 0.5 then LeftSide else RightSide)
              && SpawnPoint(cfg, s.from) == Some(s.spawnPoint)
              && (s.target.Some? <==> cfg.horizontalCarPrefab.value.hasController)
              && (s.target.Some? ==> Some(s.target.value) == ExitPoint(cfg, Opposite(s.from)))
  {
    if cfg.horizontalCarPrefab.None? then NoCar
    else
      var fromLeft := coin > 0.5;
      var spawn := if fromLeft then cfg.spawnLeft else cfg.spawnRight;
      var exit := if fromLeft then cfg.exitRight else cfg.exitLeft;
      if spawn.None? || exit.None? then NoCar
      else
        var side := if fromLeft then LeftSide else RightSide;
        Crossing(side, spawn.value, if cfg.horizontalCarPrefab.value.hasController then exit else None)
  }

  datatype Tick = Tick(state: TrafficState, attempt: Option<Spawn>)

  function Update(cfg: Config, st: TrafficState, now: real, coin: real, u: real): (t: Tick)
    requires 0.0 <= u <= 1.0
    ensures t.attempt.Some? <==> now >= st.nextSpawnTime
    ensures t.attempt.Some? ==> t.attempt.value == SpawnHorizontalCar(cfg, coin)
    ensures t.attempt.None? ==> t.state == st
    ensures t.attempt.Some? && cfg.spawnIntervalMin <= cfg.spawnIntervalMax ==>
              now + cfg.spawnIntervalMin <= t.state.nextSpawnTime <= now + cfg.spawnIntervalMax
  {
    if now >= st.nextSpawnTime then
      Tick(ScheduleNextSpawn(cfg, now, u), Some(SpawnHorizontalCar(cfg, coin)))
    else Tick(st, None)
  }

  /** A crossing car heads for the far side: from the left its target is
      the right exit, from the right the left exit. */
  lemma ExitIsOppositeSide(cfg: Config, coin: real)
    ensures var s := SpawnHorizontalCar(cfg, coin);
            s.Crossing? && s.target.Some? ==>
              && (s.from == LeftSide ==> s.target == cfg.exitRight)
              && (s.from == RightSide ==> s.target == cfg.exitLeft)
              && s.target == ExitPoint(cfg, Opposite(s.from))
  {
  }

  /** With two distinct exits configured, a crossing car never targets the
      exit on its own side. */
  lemma ExitNeverOwnSide(cfg: Config, coin: real)
    requires cfg.exitLeft != cfg.exitRight
    ensures var s := SpawnHorizontalCar(cfg, coin);
            s.Crossing? && s.target.Some? ==> s.target != ExitPoint(cfg, s.from)
  {
    ExitIsOppositeSide(cfg, coin);
  }

  /** A run of frames: each frame's clock reading, side coin and interval
      fraction. */
  datatype Frame = Frame(now: real, coin: real, interval: real)

  predicate ValidFrames(frames: seq<Frame>) {
    forall i :: 0 <= i < |frames| ==> 0.0 <= frames[i].interval <= 1.0
  }

  /** The spawner's state after a run of frames, and every spawn attempt. */
  function RunFrames(cfg: Config, st: TrafficState, frames: seq<Frame>): (r: (TrafficState, seq<Spawn>))
    requires ValidFrames(frames)
    decreases |frames|
  {
    if |frames| == 0 then (st, [])
    else
      var t := Update(cfg, st, frames[0].now, frames[0].coin, frames[0].interval);
      var rest := RunFrames(cfg, t.state, frames[1..]);
      match t.attempt
      case None => rest
      case Some(sp) => (rest.0, [sp] + rest.1)
  }

  /** Over any run of frames, every car created sits at its own side's spawn
      point and, when given a target, heads for the exit on the far side. */
  lemma {:induction false} CrossingsHeadForFarSide(cfg: Config, st: TrafficState, frames: seq<Frame>)
    requires ValidFrames(frames)
    ensures forall sp :: sp in RunFrames(cfg, st, frames).1 && sp.Crossing? ==>
              && SpawnPoint(cfg, sp.from) == Some(sp.spawnPoint)
              && (sp.target.Some? ==> sp.target == ExitPoint(cfg, Opposite(sp.from)))
    decreases |frames|
  {
    if |frames| > 0 {
      var t := Update(cfg, st, frames[0].now, frames[0].coin, frames[0].interval);
      CrossingsHeadForFarSide(cfg, t.state, frames[1..]);
    }
  }
}

=== FILE: vehicle_spawner.dfy ===
/**
 The controllable-car spawner. Its state is an enabled flag and the time of
 the next spawn. On every frame, while enabled and once the clock has
 reached that time, it spawns one car in a random lane and reschedules the
 next spawn a random interval later. A spawned car is given its lane's
 stop and straight-exit anchors, looked up without ever indexing past an
 array's end, plus the two shared turn anchors, and a random desired
 direction.

 The clock and the random draws are arguments: `now` is the frame time, a
 `Draws` value carries what the random source returned this frame.
 */
module VehicleSpawning {
  import opened Engine

  /** The direction a car wants to take, in `CarDesiredDirection`'s declaration order. */
  datatype Direction = Straight | Left | Right

  /** The enum cast applied to an integer draw from [0, 3). */
  function DirectionOf(k: int): (d: Direction)
    requires 0 <= k < 3
    ensures k == 0 <==> d == Straight
    ensures k == 1 <==> d == Left
    ensures k == 2 <==> d == Right
  {
    if k == 0 then Straight else if k == 1 then Left else Right
  }

  /** A Transform array field: the array itself may be null, and so may
      each of its slots. */
  type Slots = Option<seq<Option<Anchor>>>

  function SlotCount(arr: Slots): nat {
    match arr
    case None => 0
    case Some(a) => |a|
  }

  /** The spawner's inspector settings. */
  datatype Config = Config(
    npcCarPrefab: Option<Prefab>,
    laneSpawnPoints: Slots,
    laneStopPoints: Slots,
    laneStraightPoints: Slots,
    leftTurnPoint: Option<Anchor>,
    rightTurnPoint: Option<Anchor>,
    spawnIntervalMin: real,
    spawnIntervalMax: real,
    autoStart: bool)

  datatype SpawnerState = SpawnerState(spawningEnabled: bool, nextSpawnTime: real)

  /** What the random source returns in one frame: an integer lane draw, an
      integer direction draw, and the fraction used for the interval draw. */
  datatype Draws = Draws(lane: int, direction: int, interval: real)

  /** The ranges the random source promises: a lane in [0, number of spawn
      points) whenever there is one, a direction in [0, 3), and a fraction
      in [0, 1]. */
  predicate ValidDraws(cfg: Config, d: Draws) {
    && (SlotCount(cfg.laneSpawnPoints) > 0 ==> 0 <= d.lane < SlotCount(cfg.laneSpawnPoints))
    && 0 <= d.direction < 3
    && 0.0 <= d.interval <= 1.0
  }

  /** Bounds-safe lookup: null for a null array or an index past its end,
      otherwise the slot's content. */
  function SafeGet(arr: Slots, index: nat): (r: Option<Anchor>)
    ensures arr.None? ==> r == None
    ensures arr.Some? && index >= |arr.value| ==> r == None
    ensures arr.Some? && index < |arr.value| ==> r == arr.value[index]
  {
    match arr
    case None => None
    case Some(a) => if |a| <= index then None else a[index]
  }

  /** The time of the next spawn, drawn a random interval after `now`. */
  function ScheduleNextSpawn(cfg: Config, now: real, u: real): (t: real)
    requires 0.0 <= u <= 1.0
    ensures cfg.spawnIntervalMin <= cfg.spawnIntervalMax ==>
              now + cfg.spawnIntervalMin <= t <= now + cfg.spawnIntervalMax
  {
    now + RangeDraw(cfg.spawnIntervalMin, cfg.spawnIntervalMax, u)
  }

  /** Start-up: enabled exactly when `autoStart` is set, and a next spawn
      time scheduled either way. */
  function Start(cfg: Config, now: real, u: real): (st: SpawnerState)
    requires 0.0 <= u <= 1.0
    ensures st.spawningEnabled == cfg.autoStart
    ensures cfg.spawnIntervalMin <= cfg.spawnIntervalMax ==>
              now + cfg.spawnIntervalMin <= st.nextSpawnTime <= now + cfg.spawnIntervalMax
  {
    SpawnerState(cfg.autoStart, ScheduleNextSpawn(cfg, now, u))
  }

  /** Turns spawning on and reschedules, so that a spawner switched on late
      does not fire at once for an overdue time. */
  function StartSpawning(cfg: Config, st: SpawnerState, now: real, u: real): (st': SpawnerState)
    requires 0.0 <= u <= 1.0
    ensures st'.spawningEnabled
    ensures cfg.spawnIntervalMin <= cfg.spawnIntervalMax ==>
              now + cfg.spawnIntervalMin <= st'.nextSpawnTime <= now + cfg.spawnIntervalMax
  {
    SpawnerState(true, ScheduleNextSpawn(cfg, now, u))
  }

  /** Turns spawning off and keeps the scheduled time as it was. */
  function StopSpawning(st: SpawnerState): (st': SpawnerState)
    ensures !st'.spawningEnabled
    ensures st'.nextSpawnTime == st.nextSpawnTime
  {
    st.(spawningEnabled := false)
  }

  /** How a spawned car is configured when its prefab carries the car script. */
  datatype CarSetup = CarSetup(
    laneIndex: nat,
    stopPoint: Option<Anchor>,
    straightPoint: Option<Anchor>,
    leftTurnPoint: Option<Anchor>,
    rightTurnPoint: Option<Anchor>,
    desiredDirection: Direction)

  /** The result of one spawn attempt.
      - `Skipped`: no prefab or no spawn points; nothing is created.
      - `Faulted`: the drawn lane's spawn slot is null, so reading its
        position throws and the frame's update stops there.
      - `Spawned`: a car object is created at the lane's spawn point; it is
        configured (`setup`) only when the prefab carries the car script. */
  datatype Spawn =
    | Skipped
    | Faulted
    | Spawned(lane: nat, spawnPoint: Anchor, setup: Option<CarSetup>)

  function SpawnCar(cfg: Config, d: Draws): (s: Spawn)
    requires ValidDraws(cfg, d)
    ensures s == Skipped <==> cfg.npcCarPrefab.None? || SlotCount(cfg.laneSpawnPoints) == 0
    ensures s == Faulted <==>
              && cfg.npcCarPrefab.Some? && SlotCount(cfg.laneSpawnPoints) > 0
              && cfg.laneSpawnPoints.value[d.lane].None?
    ensures s.Spawned? ==>
              && s.lane == d.lane < SlotCount(cfg.laneSpawnPoints)
              && cfg.laneSpawnPoints.value[s.lane] == Some(s.spawnPoint)
              && (s.setup.Some? <==> cfg.npcCarPrefab.value.hasController)
    ensures s.Spawned? && s.setup.Some? ==>
              && s.setup.value.laneIndex == s.lane
              && s.setup.value.stopPoint == SafeGet(cfg.laneStopPoints, s.lane)
              && s.setup.value.straightPoint == SafeGet(cfg.laneStraightPoints, s.lane)
              && s.setup.value.leftTurnPoint == cfg.leftTurnPoint
              && s.setup.value.rightTurnPoint == cfg.rightTurnPoint
              && s.setup.value.desiredDirection == DirectionOf(d.direction)
  {
    if cfg.npcCarPrefab.None? || cfg.laneSpawnPoints.None? || |cfg.laneSpawnPoints.value| == 0 then
      Skipped
    else
      var laneIndex: nat := d.lane;
      match cfg.laneSpawnPoints.value[laneIndex]
      case None => Faulted
      case Some(spawn) =>
        var setup :=
          if cfg.npcCarPrefab.value.hasController then
            Some(CarSetup(
              laneIndex,
              SafeGet(cfg.laneStopPoints, laneIndex),
              SafeGet(cfg.laneStraightPoints, laneIndex),
              cfg.leftTurnPoint,
              cfg.rightTurnPoint,
              DirectionOf(d.direction)))
          else None;
        Spawned(laneIndex, spawn, setup)
  }

  /** One frame: the new state, and the spawn attempt made (`None` when the
      spawner was disabled or not yet due). */
  datatype Tick = Tick(state: SpawnerState, attempt: Option<Spawn>)

  function Update(cfg: Config, st: SpawnerState, now: real, d: Draws): (t: Tick)
    requires ValidDraws(cfg, d)
    ensures t.attempt.Some? <==> st.spawningEnabled && now >= st.nextSpawnTime
    ensures t.attempt.Some? ==> t.attempt.value == SpawnCar(cfg, d)
    ensures t.attempt.None? ==> t.state == st
    ensures t.attempt == Some(Faulted) ==> t.state == st
    ensures t.attempt.Some? && t.attempt != Some(Faulted) ==>
              && t.state.spawningEnabled
              && (cfg.spawnIntervalMin <= cfg.spawnIntervalMax ==>
                    now + cfg.spawnIntervalMin <= t.state.nextSpawnTime <= now + cfg.spawnIntervalMax)
    ensures t.state.spawningEnabled == st.spawningEnabled
  {
    if !st.spawningEnabled then Tick(st, None)
    else if now >= st.nextSpawnTime then
      var s := SpawnCar(cfg, d);
      if s == Faulted then Tick(st, Some(s))
      else Tick(st.(nextSpawnTime := ScheduleNextSpawn(cfg, now, d.interval)), Some(s))
    else Tick(st, None)
  }

  /** Switching the spawner on reschedules at least the minimum interval
      ahead, so with a positive minimum it never spawns in the same frame. */
  lemma NoBurstAfterStartSpawning(cfg: Config, st: SpawnerState, now: real, d: Draws)
    requires ValidDraws(cfg, d)
    requires 0.0 < cfg.spawnIntervalMin <= cfg.spawnIntervalMax
    ensures Update(cfg, StartSpawning(cfg, st, now, d.interval), now, d).attempt.None?
  {
  }

  /** A run of frames: each frame's clock reading and random draws. */
  datatype Frame = Frame(now: real, draws: Draws)

  predicate ValidFrames(cfg: Config, frames: seq<Frame>) {
    forall i :: 0 <= i < |frames| ==> ValidDraws(cfg, frames[i].draws)
  }

  /** The spawner's state after a run of frames, and every spawn attempt. */
  function RunFrames(cfg: Config, st: SpawnerState, frames: seq<Frame>): (r: (SpawnerState, seq<Spawn>))
    requires ValidFrames(cfg, frames)
    decreases |frames|
  {
    if |frames| == 0 then (st, [])
    else
      var t := Update(cfg, st, frames[0].now, frames[0].draws);
      var rest := RunFrames(cfg, t.state, frames[1..]);
      match t.attempt
      case None => rest
      case Some(s) => (rest.0, [s] + rest.1)
  }

  /** A stopped spawner stays stopped and attempts nothing, however many
      frames pass and whatever the clock says. */
  lemma {:induction false} StoppedSpawnerIsInert(cfg: Config, st: SpawnerState, frames: seq<Frame>)
    requires ValidFrames(cfg, frames)
    requires !st.spawningEnabled
    ensures RunFrames(cfg, st, frames) == (st, [])
    decreases |frames|
  {
    if |frames| > 0 {
      StoppedSpawnerIsInert(cfg, st, frames[1..]);
    }
  }

  /** Every car spawned over a run of frames sits in a lane that has a
      spawn point. */
  lemma {:induction false} SpawnedLanesInRange(cfg: Config, st: SpawnerState, frames: seq<Frame>)
    requires ValidFrames(cfg, frames)
    ensures forall s :: s in RunFrames(cfg, st, frames).1 && s.Spawned? ==>
              s.lane < SlotCount(cfg.laneSpawnPoints)
    decreases |frames|
  {
    if |frames| > 0 {
      var t := Update(cfg, st, frames[0].now, frames[0].draws);
      SpawnedLanesInRange(cfg, t.state, frames[1..]);
    }
  }
}
